=== FILE: README.md ===
# robot-generic-access: routing and gate model

A Dafny model of the core of a webhook relay. The relay receives a code-hosting
webhook event, looks up which plugins (named subscriber services) want it, and
posts the event to each plugin's endpoint. Two parts are modelled:

- **Routing configuration** (`config.go`). The `access` section holds a
  `repo_plugins` map and a `plugins` list. The map's keys are scope keys, either
  `org` or `org/repo`, and its values are lists of plugin names.
  - `config.dfy` (module `Config`) holds the datatypes and the validation of one
    plugin and of the whole section (`pluginConfig.validate`,
    `accessConfig.validate`). It also holds endpoint resolution (`GetEndpoints`,
    `matchEndpoint`).
  - `config_proofs.dfy` (module `ConfigProofs`) proves the properties of
    resolution and validation.
  - `config_examples.dfy` (modules `ConfigTexts` and `ConfigExamples`)
    reconstructs configurations that reproduce the results the repository's
    tests expect (the tests' YAML files are not part of this model), their
    error texts, and one configuration of its own with a plugin without events.
- **Inbound gate and dispatcher** (`robot.go`).
  - `robot.dfy` (module `Robot`) models `ServeHTTP` as a pure function from a
    robot state and a request to a response and a new state. It models the
    `dispatcher` loop as a method over an oracle of POST outcomes. The
    `sync.WaitGroup` is kept only as its counter, `inFlight`.
  - `robot_proofs.dfy` (module `RobotProofs`) states the gate's precedence, the
    repository's gate tests, and the balance of the in-flight counter.
- `wrappers.dfy` (module `Wrappers`) holds `Option` and `Outcome`.

Where the code and its own comments differ, the model follows the code:

- `Events` is documented as "if no events are specified, everything is sent"
  (config.go:47-48). `matchEndpoint` instead requires the event to be listed
  (config.go:121), so a plugin without events is never selected.
  `ConfigProofs.MatchEndpointIgnoresSilentPlugins` and
  `ConfigExamples.CatchAllIsNotImplemented` prove this.

Two further points about the code:

- The dispatcher is one sequential loop, not a concurrent fan-out
  (robot.go:92-102). It returns at the first POST error, so later endpoints are
  never tried. `Robot.Dispatcher` models the loop.
- Nothing checks that plugin names are unique. Duplicate names each contribute
  their endpoint (`ConfigProofs.DuplicatePluginNames`).

Three collaborators are parameters of the model:

- `url.ParseRequestURI` is the predicate `parses`. The examples state the
  facts they use about it as requirements: that `"41231"` is rejected, and
  that `"http://localhost:7000/gitcode-hook"` is accepted.
- Go's unspecified map iteration order in `accessConfig.validate` is the
  parameter `order`. It must list every key exactly once. The reported names are
  proved to be the same bag for every such order (`Config.MissingRefsIsBag`).
- The outcome of each POST is the sequence `posts`, one entry per endpoint.

`Robot.Dispatcher` requires at least one dispatcher to be counted in flight.
`ServeHTTP` establishes this by calling `wg.Add(1)` before it starts the
goroutine, and a `sync.WaitGroup` would panic if the count went negative.

## Model

| member | source | states |
|---|---|---|
| Config.ValidatePlugin | config.go:77-91 | A plugin passes exactly when its name and endpoint are non-empty and the endpoint parses. Name is checked first, then endpoint presence, then URL syntax, each with its own message. |
| Config.FirstPluginError | config.go:53-59 | No error exactly when every plugin is well formed. Otherwise the error is the one of a plugin all of whose predecessors are well formed. |
| Config.Unresolved | config.go:63-67 | Each reference outside the known names is kept as often as it occurs. Known names never appear. |
| Config.MissingRefs | config.go:61-68 | A name is reported exactly when it is unknown and listed under one of the visited keys. |
| Config.Validate | config.go:52-75 | Passes exactly when every plugin is well formed and every subscribed name is a plugin name. A plugin error is that of the first failing plugin. Otherwise it reports every unresolved reference: the right set of names, non-empty, and the same bag whatever the map order. |
| Config.MissingRefsIsBag | config.go:61-71 | Every iteration order of the subscription map reports the same multiset of unknown names. |
| Config.MatchName | config.go:120-124 | Definition; properties in ConfigProofs.MatchNameCount and ConfigProofs.MatchNameListening. |
| Config.MatchEndpoint | config.go:118-128 | Definition; properties in ConfigProofs.MatchEndpointCount and ConfigProofs.MatchEndpointMembers. |
| Config.GetEndpoints | config.go:93-116 | Definition; properties in ConfigProofs.GetEndpointsIsMatch and ConfigProofs.GetEndpointsOrder. |
| Config.Join | config.go:70-71 | Definition of the space-separated elements of Go's `%v` for a string slice; properties in ConfigTexts.JoinSnoc. |
| Config.FormatList | config.go:70-71 | Definition of Go's `%v` for a string slice; properties in ConfigTexts.FormatListPair and ConfigTexts.MissingPluginsText. |
| Config.ErrorMessage | config.go:54-71 | Definition of the returned error's text; properties in ConfigTexts.MissingPluginsText and ConfigExamples.UnknownReferenceMessage. |
| ConfigProofs.MatchEndpointAppend | config.go:118-128 | Matching a concatenation of candidate lists gives the matches of the first list followed by those of the second. |
| ConfigProofs.MatchEndpointNoPlugins | config.go:118-128 | With an empty plugin list nothing matches. |
| ConfigProofs.GetEndpointsIsMatch | config.go:93-116 | The nil-map return and the emptiness guard do not change the result: it equals the matches of the org candidates followed by the org/repo candidates. |
| ConfigProofs.GetEndpointsOrder | config.go:100-112 | The endpoints for the `org` subscriptions come first, then those for the `org/repo` subscriptions. |
| ConfigProofs.NoSubscriptionNoEndpoints | config.go:96-109 | With neither key present, or a nil map, the result is empty. |
| ConfigProofs.MatchNameCount | config.go:120-124 | For one candidate, each endpoint occurs once per plugin entry that has that name, lists the event and has that endpoint. |
| ConfigProofs.MatchEndpointCount | config.go:118-128 | Each endpoint occurs exactly once per (candidate occurrence, plugin entry) pair that matches on name and event. Nothing is deduplicated. |
| ConfigProofs.MatchEndpointMembers | config.go:119-124 | A URL is returned exactly when some candidate names a plugin that lists the event and has that URL. |
| ConfigProofs.DoubleSubscription | config.go:100-112 | A plugin subscribed under both the org key and the org/repo key gets its endpoint at least twice. |
| ConfigProofs.DuplicatePluginNames | config.go:119-124 | Two plugin entries with the same matching name both contribute. If they share an endpoint, it appears at least twice. |
| ConfigProofs.MatchNameListening | config.go:120-124 | For one candidate, dropping the plugins without events changes nothing. |
| ConfigProofs.MatchEndpointIgnoresSilentPlugins | config.go:121 | Dropping every plugin whose event list is empty never changes the match. An empty list is never "all events". |
| ConfigProofs.NoEventsNoEndpoints | config.go:93-124 | If no plugin lists any event, every query resolves to nothing. |
| ConfigProofs.ValidatedResolution | config.go:52-124 | After validation passes, every candidate name is a defined plugin, and every resolved URL is non-empty and parses. |
| ConfigProofs.FirstInvalidPluginDecides | config.go:54-57 | The first failing plugin decides validation, whatever the later plugins and the subscriptions are. |
| ConfigProofs.FirstErrorPrefix | config.go:54-57 | The first plugin error depends only on the plugins up to and including the failing one. |
| ConfigExamples.EmptyConfigsValidate | config_test.go:37-68 | Empty configurations, with a nil or an empty map, validate. |
| ConfigExamples.SinglePluginError | config.go:54-57 | With one invalid plugin, the section's error is that plugin's error. |
| ConfigExamples.MissingNameMessageCase | config_test.go:85-92 | A plugin without a name gets "plugin missing name". |
| ConfigExamples.MissingEndpointMessageCase | config_test.go:93-100 | A named plugin without endpoint gets "serv2 plugin missing endpoint". |
| ConfigExamples.InvalidUrlMessageCase | config_test.go:77-84 | An unparsable endpoint gets "41231 not a valid url". |
| ConfigExamples.UnknownReferenceReported | config_test.go:69-76 | A subscription to an undefined plugin is reported with exactly that name. |
| ConfigExamples.UnknownReferenceMessage | config_test.go:69-76 | Its text is the prefix "repo_plugins ", then "[serv1]", then " missing plugins in the configmap". |
| ConfigTexts.MissingPluginsText | config.go:70-71 | For any one-name list, the unknown-references error puts the name in brackets between the fixed prefix and suffix. |
| ConfigTexts.JoinSnoc | config.go:70-71 | Appending a name to a non-empty list adds exactly one space and that name to the printed elements. |
| ConfigTexts.FormatListPair | config.go:70-71 | Two names are printed in brackets, in order, separated by a single space. |
| ConfigTexts.EndpointText | config.go:82-84 | The missing-endpoint message for `serv2` reads "serv2 plugin missing endpoint". |
| ConfigTexts.UrlText | config.go:86-88 | The invalid-URL message for `41231` reads "41231 not a valid url". |
| ConfigExamples.TwoScopesResolution | config_test.go:193-203 | With subscriptions at both levels, the org-level endpoint precedes the repo-level one. |
| ConfigExamples.TwoScopesMisses | config_test.go:149-170 | In the same configuration, an unknown org gets nothing and an event nobody lists reaches nobody; another repository of the org gets only the org-level endpoint. |
| ConfigExamples.UnloadedResolvesNothing | config_test.go:138-148 | A configuration that was never loaded resolves every query to nothing. |
| ConfigExamples.RepoScopeResolution | config_test.go:171-192 | With only an `org/repo` subscription, that repository gets its endpoint and another repository of the org gets nothing. |
| ConfigExamples.CatchAllIsNotImplemented | config.go:47-49 | A plugin declared without events never receives its endpoint, whatever the event. The neighbour's "IssueHook" reaches only the neighbour, and every other event reaches nobody. |
| Robot.SetHeader | robot.go:81 | The Robot-Chain header carries exactly the one value and all other headers are unchanged. |
| Robot.ServeHTTP | robot.go:47-83 | The response is a 400 exactly when one of the four fields is missing, and the robot is then untouched. Otherwise it dispatches exactly when resolution is non-empty. A dispatch carries the resolved list and the headers with only Robot-Chain set, and raises the in-flight count by one. No subscribers leaves the robot untouched. |
| Robot.Done | robot.go:90 | A finished dispatcher lowers the in-flight count by exactly one. |
| Robot.Dispatcher | robot.go:89-108 | Endpoints are posted in order with the gate's headers. Every attempt but the last succeeded. The loop stops only at a transport error or at the end of the list. The count drops by exactly one on every exit. |
| Robot.ServeAll | robot.go:75-82 | Over a batch of requests, the in-flight count rises by the number of dispatches started, each with a non-empty list. |
| Robot.DoneTimes | robot.go:85-90 | After n dispatchers finish, the count is n lower. |
| Robot.GetString | robot.go:50-68 | Definition: a nil field reads as ""; properties in RobotProofs.GatePrecedence. |
| Robot.StatusCode | robot.go:50-72 | Definition; properties in RobotProofs.GateResponse and RobotProofs.GateAccepts. |
| Robot.ResponseBody | robot.go:50-72 | Definition; properties in RobotProofs.GateResponse and RobotProofs.GateAccepts. |
| RobotProofs.GateResponse | robot.go:50-72 | When f is the first missing field, the caller reads status 400 and f's message followed by a newline, as `http.Error` writes it. |
| RobotProofs.GateAccepts | robot.go:47-83 | A request with every field present gets the default status 200 and an empty body, whether or not anything is dispatched. |
| RobotProofs.MessagesDistinct | robot.go:27-32 | The four 400 messages are pairwise different. |
| RobotProofs.GatePrecedence | robot.go:50-72 | The caller gets the message of field f exactly when f is missing and every field checked before it is present. |
| RobotProofs.GateTestCases | robot_test.go:135-179 | Without repo the body is the no-repo message and a newline. Without org and repo it is the no-owner message. Without event type, org and repo it is the missing-event-type message. All are status 400 and leave the robot untouched. |
| RobotProofs.DrainRestores | robot.go:80-90 | Once every dispatcher a batch started has finished, the robot is back where it was. From an idle robot, the drain is not reached while one is still running. |
| RobotProofs.HandleRequest | robot.go:47-107 | A request ends with the robot unchanged. A 400 or no subscribers means no POST. A dispatch posts at least once. Every POST goes to the resolved endpoint at its position, with only the Robot-Chain header added. |

## Left out

- Real HTTP delivery is left out because it is library and I/O behaviour: the resty client, its three retries, proxy removal, draining the response body, and logging (robot.go:34-37, 51-69, 91-106). A POST is one oracle outcome, `Responded` or `TransportError`. The request body sent, the event itself, is not recorded in an `Attempt`.
- Goroutines and `sync.WaitGroup` are reduced to the counter `inFlight`; scheduling and blocking are not modelled. `wait()` is only the predicate `Drained`. `Robot.Dispatcher` runs the loop to completion as one call.
- The shared `bot.event` field is not modelled. It is written by every request that passes the four checks (robot.go:74), including one with no subscribers, and read by the dispatcher, so it races across requests. "Robot untouched" and "robot unchanged" in the rows above refer to the configuration and the in-flight count only.
- Parsing a request into an event (`client.NewGenericEvent`, `GetMetaPayload`, `utils.GetString`) comes from another library. The event is a record of optional fields. `GetString` is assumed to map nil to "".
- `url.ParseRequestURI` is the uninterpreted predicate `parses`.
- Header-name canonicalisation by `Header.Set` is not modelled. Robot-Chain is already in canonical form.
- YAML loading and flag parsing (options.go), server start-up and the health handler (main.go), and `newRobot` are left out because they are I/O plumbing.
- Config.Validate: the error text for unknown references is modelled for a given map order only. Go's map order is unspecified, so the contract fixes the reported names as a multiset, not their textual order.

=== FILE: config.dfy ===
/**
 * The routing configuration of the relay (config.go): the plugin list, the
 * `repo_plugins` subscriptions, their validation and the resolution of an
 * (org, repo, event type) query to an ordered list of endpoint URLs.
 */
module Config {
  import opened Wrappers

  /** One entry of the `plugins` list: a named subscriber and the events it takes. */
  datatype Plugin = Plugin(name: string, endpoint: string, events: seq<string>)

  /**
   * The `access` section. `repoPlugins` maps a scope key, `org` or `org/repo`,
   * to plugin names; `None` is a nil map, which Go distinguishes from an empty one.
   */
  datatype AccessConfig = AccessConfig(repoPlugins: Option<map<string, seq<string>>>, plugins: seq<Plugin>)

  /** The subscription map, a nil map reading as an empty one. */
  function Subscriptions(c: AccessConfig): map<string, seq<string>>
  {
    match c.repoPlugins
    case None => map[]
    case Some(m) => m
  }

  // ---------------------------------------------------------------------------
  // Validation of a single plugin
  // ---------------------------------------------------------------------------

  const MissingNameMessage: string := "plugin missing name"

  function MissingEndpointMessage(name: string): string
  {
    name + " plugin missing endpoint"
  }

  function InvalidUrlMessage(endpoint: string): string
  {
    endpoint + " not a valid url"
  }

  /**
   * What the configuration promises about a plugin once loaded: it has a name and
   * an endpoint that the request-URI parser `parses` accepts.
   */
  predicate WellFormedPlugin(p: Plugin, parses: string -> bool)
  {
    p.name != "" && p.endpoint != "" && parses(p.endpoint)
  }

  /**
   * `pluginConfig.validate`. The checks are made in a fixed order and the first
   * failing one decides the message; `parses` stands for `url.ParseRequestURI`.
   */
  function ValidatePlugin(p: Plugin, parses: string -> bool): (r: Outcome<string>)
    ensures r.Pass? <==> WellFormedPlugin(p, parses)
    ensures p.name == "" ==> r == Fail(MissingNameMessage)
    ensures p.name != "" && p.endpoint == "" ==> r == Fail(MissingEndpointMessage(p.name))
    ensures p.name != "" && p.endpoint != "" && !parses(p.endpoint) ==> r == Fail(InvalidUrlMessage(p.endpoint))
  {
    if p.name == "" then Fail(MissingNameMessage)
    else if p.endpoint == "" then Fail(MissingEndpointMessage(p.name))
    else if !parses(p.endpoint) then Fail(InvalidUrlMessage(p.endpoint))
    else Pass
  }

  // ---------------------------------------------------------------------------
  // Validation of the whole access section
  // ---------------------------------------------------------------------------

  /**
   * The first loop of `accessConfig.validate`: the error of the first plugin that
   * fails, in list order, or `None` when every plugin passes.
   */
  function FirstPluginError(ps: seq<Plugin>, parses: string -> bool): (r: Option<string>)
    ensures r.None? <==> forall i | 0 <= i < |ps| :: WellFormedPlugin(ps[i], parses)
    ensures r.Some? ==> exists i | 0 <= i < |ps| ::
      && ValidatePlugin(ps[i], parses) == Fail(r.value)
      && forall j | 0 <= j < i :: WellFormedPlugin(ps[j], parses)
  {
    if ps == [] then None
    else match ValidatePlugin(ps[0], parses)
      case Fail(msg) => Some(msg)
      case Pass =>
        var rest := FirstPluginError(ps[1..], parses);
        assert forall i | 1 <= i < |ps| :: ps[i] == ps[1..][i - 1];
        rest
  }

  /** The names the plugin list defines (`botSet`). */
  function PluginNames(ps: seq<Plugin>): set<string>
  {
    set p | p in ps :: p.name
  }

  /** The references in `names` that `known` does not define, in order, duplicates kept. */
  function Unresolved(names: seq<string>, known: set<string>): (r: seq<string>)
    ensures forall x | x !in known :: multiset(r)[x] == multiset(names)[x]
    ensures forall x | x in known :: x !in r
  {
    if names == [] then []
    else
      assert names == [names[0]] + names[1..];
      (if names[0] in known then [] else [names[0]]) + Unresolved(names[1..], known)
  }

  /**
   * `order` lists the elements of `keys` exactly once each: for the key set of a
   * map, one possible iteration order, which Go leaves unspecified.
   */
  predicate Enumerates(order: seq<string>, keys: set<string>)
  {
    && (forall i, j | 0 <= i < j < |order| :: order[i] != order[j])
    && (forall k | k in keys :: k in order)
    && (forall i | 0 <= i < |order| :: order[i] in keys)
  }

  /** The second loop of `accessConfig.validate`, visiting the keys in `order`. */
  function MissingRefs(m: map<string, seq<string>>, order: seq<string>, known: set<string>): (r: seq<string>)
    requires forall i | 0 <= i < |order| :: order[i] in m
    ensures forall x :: x in r <==> x !in known && exists i | 0 <= i < |order| :: x in m[order[i]]
  {
    if order == [] then []
    else
      var rest := MissingRefs(m, order[1..], known);
      assert forall i | 1 <= i < |order| :: order[i] == order[1..][i - 1];
      Unresolved(m[order[0]], known) + rest
  }

  /**
   * The unresolved references under the keys `keys` of `m` as a bag, independent
   * of any iteration order: those under one key plus those under the others.
   */
  ghost function MissingBag(m: map<string, seq<string>>, keys: set<string>, known: set<string>): multiset<string>
    requires keys <= m.Keys
    decreases keys
  {
    if keys == {} then multiset{}
    else
      var k :| k in keys;
      multiset(Unresolved(m[k], known)) + MissingBag(m, keys - {k}, known)
  }

  /** Every plugin name referenced by a subscription is defined in the plugin list. */
  predicate AllReferencesResolve(c: AccessConfig)
  {
    forall k, n | k in Subscriptions(c) && n in Subscriptions(c)[k] :: n in PluginNames(c.plugins)
  }

  /** The errors `accessConfig.validate` can return. */
  datatype ConfigError =
    | InvalidPlugin(message: string)
    | MissingPlugins(refs: seq<string>)

  /**
   * `accessConfig.validate` (and `configuration.Validate`, which delegates to it),
   * with the map iteration order made explicit as `order`.
   */
  function Validate(c: AccessConfig, parses: string -> bool, order: seq<string>): (r: Outcome<ConfigError>)
    requires Enumerates(order, Subscriptions(c).Keys)
    ensures r == Pass <==>
      && (forall i | 0 <= i < |c.plugins| :: WellFormedPlugin(c.plugins[i], parses))
      && AllReferencesResolve(c)
    ensures r.Fail? && r.error.InvalidPlugin? ==>
      exists i | 0 <= i < |c.plugins| ::
        && ValidatePlugin(c.plugins[i], parses) == Fail(r.error.message)
        && forall j | 0 <= j < i :: WellFormedPlugin(c.plugins[j], parses)
    ensures r.Fail? && r.error.MissingPlugins? ==>
      && (forall i | 0 <= i < |c.plugins| :: WellFormedPlugin(c.plugins[i], parses))
      && r.error.refs != []
      && (forall x :: x in r.error.refs <==>
            x !in PluginNames(c.plugins) && exists k | k in Subscriptions(c) :: x in Subscriptions(c)[k])
      && multiset(r.error.refs) == MissingBag(Subscriptions(c), Subscriptions(c).Keys, PluginNames(c.plugins))
  {
    match FirstPluginError(c.plugins, parses)
    case Some(msg) => Fail(InvalidPlugin(msg))
    case None =>
      var m := Subscriptions(c);
      var known := PluginNames(c.plugins);
      var e := MissingRefs(m, order, known);
      MissingRefsIsBag(m, order, m.Keys, known);
      MissingRefsMembers(m, order, known);
      if |e| > 0 then Fail(MissingPlugins(e)) else Pass
  }

  /** Go's `%v` rendering of a `[]string`: the elements, space separated, in brackets. */
  function FormatList(xs: seq<string>): string
  {
    "[" + Join(xs) + "]"
  }

  function Join(xs: seq<string>): string
  {
    if xs == [] then ""
    else if |xs| == 1 then xs[0]
    else xs[0] + " " + Join(xs[1..])
  }

  const MissingPluginsPrefix: string := "repo_plugins "
  const MissingPluginsSuffix: string := " missing plugins in the configmap"

  /** The text of the error `accessConfig.validate` returns. */
  function ErrorMessage(e: ConfigError): string
  {
    match e
    case InvalidPlugin(msg) => msg
    case MissingPlugins(refs) => MissingPluginsPrefix + FormatList(refs) + MissingPluginsSuffix
  }

  // Lemmas `Validate` needs for its bag postcondition.

  /** `MissingBag` may peel off any key, not only the one it chooses. */
  lemma {:induction false} MissingBagAnyKey(m: map<string, seq<string>>, keys: set<string>, known: set<string>, key: string)
    requires keys <= m.Keys && key in keys
    ensures MissingBag(m, keys, known) == multiset(Unresolved(m[key], known)) + MissingBag(m, keys - {key}, known)
    decreases keys
  {
    var k :| k in keys && MissingBag(m, keys, known) == multiset(Unresolved(m[k], known)) + MissingBag(m, keys - {k}, known);
    if k != key {
      MissingBagAnyKey(m, keys - {k}, known, key);
      MissingBagAnyKey(m, keys - {key}, known, k);
      assert keys - {k} - {key} == keys - {key} - {k};
    }
  }

  /** Visiting every key once, `MissingRefs` reports every unknown reference of the map. */
  lemma MissingRefsMembers(m: map<string, seq<string>>, order: seq<string>, known: set<string>)
    requires Enumerates(order, m.Keys)
    ensures forall x :: x in MissingRefs(m, order, known) <==> x !in known && exists k | k in m :: x in m[k]
    ensures MissingRefs(m, order, known) == [] <==> forall k, n | k in m && n in m[k] :: n in known
  {
    var e := MissingRefs(m, order, known);
    forall x
      ensures x in e <==> x !in known && exists k | k in m :: x in m[k]
    {
      if x !in known && exists k | k in m :: x in m[k] {
        var k :| k in m && x in m[k];
        var i :| 0 <= i < |order| && order[i] == k;
      }
    }
    if e != [] {
      assert e[0] in e;
    }
  }

  /** Whatever the iteration order, the references reported form the same bag. */
  lemma {:induction false} MissingRefsIsBag(m: map<string, seq<string>>, order: seq<string>, keys: set<string>, known: set<string>)
    requires keys <= m.Keys && Enumerates(order, keys)
    ensures multiset(MissingRefs(m, order, known)) == MissingBag(m, keys, known)
    decreases |order|
  {
    if order == [] {
      assert keys == {};
    } else {
      var k := order[0];
      var rest := order[1..];
      assert forall i | 0 <= i < |rest| :: rest[i] == order[i + 1];
      assert Enumerates(rest, keys - {k}) by {
        forall x | x in keys - {k}
          ensures x in rest
        {
          var i :| 0 <= i < |order| && order[i] == x;
          assert rest[i - 1] == x;
        }
      }
      MissingRefsIsBag(m, rest, keys - {k}, known);
      MissingBagAnyKey(m, keys, known, k);
    }
  }

  // ---------------------------------------------------------------------------
  // Resolution
  // ---------------------------------------------------------------------------

  /** The plugin names subscribed under `key`, empty when the key is absent. */
  function Lookup(m: map<string, seq<string>>, key: string): seq<string>
  {
    if key in m then m[key] else []
  }

  /** The scope key of a repository. */
  function RepoKey(org: string, repo: string): string
  {
    org + "/" + repo
  }

  /** The condition of `matchEndpoint`: same name, and the event is listed. */
  predicate Selects(p: Plugin, name: string, event: string)
  {
    p.name == name && event in p.events
  }

  /** The inner loop of `matchEndpoint`: the endpoints `name` selects, in plugin order. */
  function MatchName(ps: seq<Plugin>, event: string, name: string): seq<string>
  {
    if ps == [] then []
    else
      var last := ps[|ps| - 1];
      MatchName(ps[..|ps| - 1], event, name) + (if Selects(last, name, event) then [last.endpoint] else [])
  }

  /** `matchEndpoint`: for each candidate name in order, the endpoints it selects. */
  function MatchEndpoint(ps: seq<Plugin>, event: string, names: seq<string>): seq<string>
  {
    if names == [] then []
    else MatchEndpoint(ps, event, names[..|names| - 1]) + MatchName(ps, event, names[|names| - 1])
  }

  /** `configuration.GetEndpoints`, including its two early returns. */
  function GetEndpoints(c: AccessConfig, org: string, repo: string, eventType: string): seq<string>
  {
    match c.repoPlugins
    case None => []
    case Some(m) =>
      var servers := Lookup(m, org) + Lookup(m, RepoKey(org, repo));
      if |c.plugins| != 0 && |servers| != 0 then MatchEndpoint(c.plugins, eventType, servers) else []
  }
}

=== FILE: config_examples.dfy ===
/** The texts of the configuration errors the repository's tests compare against. */
module ConfigTexts {
  import opened Config

  /** A single unknown name appears in brackets between the fixed prefix and suffix. */
  lemma MissingPluginsText(n: string)
    ensures ErrorMessage(MissingPlugins([n])) == MissingPluginsPrefix + "[" + n + "]" + MissingPluginsSuffix
  {
  }

  /** Adding a name to a non-empty list adds one space and the name before the bracket. */
  lemma {:induction false} JoinSnoc(xs: seq<string>, y: string)
    requires xs != []
    ensures Join(xs + [y]) == Join(xs) + " " + y
    decreases |xs|
  {
    if |xs| == 1 {
      assert xs + [y] == [xs[0], y];
      assert Join([y]) == y;
    } else {
      assert (xs + [y])[1..] == xs[1..] + [y];
      JoinSnoc(xs[1..], y);
    }
  }

  /** Two names are printed in order, separated by a single space. */
  lemma FormatListPair(a: string, b: string)
    ensures FormatList([a, b]) == "[" + a + " " + b + "]"
  {
    assert Join([b]) == b;
    assert Join([a, b]) == a + " " + b;
  }

  lemma EndpointText()
    ensures MissingEndpointMessage("serv2") == "serv2 plugin missing endpoint"
  {
  }

  lemma UrlText()
    ensures InvalidUrlMessage("41231") == "41231 not a valid url"
  {
  }
}

/**
 * Concrete configurations: the validation and resolution cases the repository's
 * tests exercise, and a configuration relying on the documented "no events means
 * every event" rule, which the code does not implement.
 */
module ConfigExamples {
  import opened Wrappers
  import opened Config
  import opened ConfigProofs
  import ConfigTexts

  /** Configurations with no plugins and a nil or empty subscription map validate. */
  lemma EmptyConfigsValidate(parses: string -> bool)
    ensures Validate(AccessConfig(None, []), parses, []) == Pass
    ensures Validate(AccessConfig(Some(map[]), []), parses, []) == Pass
  {
  }

  /** The error of a configuration whose only plugin is `p`, an invalid one. */
  lemma SinglePluginError(p: Plugin, parses: string -> bool)
    requires !WellFormedPlugin(p, parses)
    ensures ErrorMessage(Validate(AccessConfig(None, [p]), parses, []).error) == ValidatePlugin(p, parses).error
  {
    var c := AccessConfig(None, [p]);
    FirstInvalidPluginDecides(c, c, parses, [], [], 0);
  }

  /** A plugin without a name is reported as such. */
  lemma MissingNameMessageCase(parses: string -> bool)
    ensures ErrorMessage(Validate(AccessConfig(None, [Plugin("", "", [])]), parses, []).error)
         == "plugin missing name"
  {
    SinglePluginError(Plugin("", "", []), parses);
  }

  /** A named plugin without endpoint is reported by name. */
  lemma MissingEndpointMessageCase(parses: string -> bool)
    ensures ErrorMessage(Validate(AccessConfig(None, [Plugin("serv2", "", [])]), parses, []).error)
         == "serv2 plugin missing endpoint"
  {
    SinglePluginError(Plugin("serv2", "", []), parses);
    ConfigTexts.EndpointText();
  }

  /** An endpoint the request-URI parser rejects is reported by its text. */
  lemma InvalidUrlMessageCase(parses: string -> bool)
    requires !parses("41231")
    ensures ErrorMessage(Validate(AccessConfig(None, [Plugin("serv1", "41231", [])]), parses, []).error)
         == "41231 not a valid url"
  {
    SinglePluginError(Plugin("serv1", "41231", []), parses);
    ConfigTexts.UrlText();
  }

  /** A configuration subscribing an org to a plugin it does not define. */
  function UnknownReference(): AccessConfig
  {
    AccessConfig(Some(map["org1" := ["serv1"]]),
                 [Plugin("serv2", "http://localhost:7000/gitcode-hook", ["Issue Hook"])])
  }

  /** The undefined plugin is reported, alone. */
  lemma UnknownReferenceReported(parses: string -> bool)
    requires parses("http://localhost:7000/gitcode-hook")
    ensures Validate(UnknownReference(), parses, ["org1"]) == Fail(MissingPlugins(["serv1"]))
  {
    var c := UnknownReference();
    assert PluginNames(c.plugins) == {"serv2"};
    assert "serv1" != "serv2" by { assert "serv1"[4] != "serv2"[4]; }
    assert FirstPluginError(c.plugins, parses) == None;
    assert Unresolved(["serv1"], {"serv2"}) == ["serv1"];
    assert MissingRefs(Subscriptions(c), ["org1"], {"serv2"}) == ["serv1"];
  }

  /** The text of that error, "repo_plugins [serv1] missing plugins in the configmap". */
  lemma UnknownReferenceMessage(parses: string -> bool)
    requires parses("http://localhost:7000/gitcode-hook")
    ensures ErrorMessage(Validate(UnknownReference(), parses, ["org1"]).error)
         == MissingPluginsPrefix + "[serv1]" + MissingPluginsSuffix
  {
    UnknownReferenceReported(parses);
    ConfigTexts.MissingPluginsText("serv1");
  }

  /** Matching one name against a list of two plugins. */
  lemma MatchOneName(ps: seq<Plugin>, event: string, name: string)
    requires |ps| == 2
    ensures MatchEndpoint(ps, event, [name])
         == (if Selects(ps[0], name, event) then [ps[0].endpoint] else [])
          + (if Selects(ps[1], name, event) then [ps[1].endpoint] else [])
  {
    assert [name][..0] == [];
    assert MatchEndpoint(ps, event, [name]) == MatchName(ps, event, name);
    assert ps[..1][..0] == [];
    assert MatchName(ps[..1], event, name) == (if Selects(ps[0], name, event) then [ps[0].endpoint] else []);
  }

  /** A configuration in which one plugin is subscribed at org level and one at repository level. */
  function TwoScopes(): AccessConfig
  {
    AccessConfig(
      Some(map["ibforuorg" := ["hook1"], "ibforuorg/test1" := ["hook2"]]),
      [ Plugin("hook1", "http://localhost:7000/gitcode-hook", ["Issue Hook"]),
        Plugin("hook2", "http://localhost:7000/gitcode-hook2", ["Issue Hook"]) ])
  }

  /** The org-level subscriber comes first, then the repository-level one. */
  lemma TwoScopesResolution()
    ensures GetEndpoints(TwoScopes(), "ibforuorg", "test1", "Issue Hook")
         == ["http://localhost:7000/gitcode-hook", "http://localhost:7000/gitcode-hook2"]
  {
    var c := TwoScopes();
    var m := Subscriptions(c);
    assert "hook1" != "hook2" by { assert "hook1"[4] != "hook2"[4]; }
    assert Lookup(m, "ibforuorg") == ["hook1"];
    assert RepoKey("ibforuorg", "test1") == "ibforuorg/test1";
    assert Lookup(m, RepoKey("ibforuorg", "test1")) == ["hook2"];
    MatchOneName(c.plugins, "Issue Hook", "hook1");
    MatchOneName(c.plugins, "Issue Hook", "hook2");
    GetEndpointsOrder(c, "ibforuorg", "test1", "Issue Hook");
  }

  /**
   * Another repository of the org gets only the org-level subscriber, an event
   * nobody lists reaches nobody, and an unknown org gets nothing.
   */
  lemma TwoScopesMisses()
    ensures GetEndpoints(TwoScopes(), "ibforuorg", "2", "Issue Hook") == ["http://localhost:7000/gitcode-hook"]
    ensures GetEndpoints(TwoScopes(), "ibforuorg", "2", "Note Hook") == []
    ensures GetEndpoints(TwoScopes(), "1", "2", "3") == []
  {
    var c := TwoScopes();
    var m := Subscriptions(c);
    var ps := c.plugins;
    assert "hook1" != "hook2" by { assert "hook1"[4] != "hook2"[4]; }
    assert Lookup(m, "ibforuorg") == ["hook1"];
    assert RepoKey("ibforuorg", "2") !in m by { assert |RepoKey("ibforuorg", "2")| == 11; }
    assert Lookup(m, RepoKey("ibforuorg", "2")) == [];
    MatchOneName(ps, "Issue Hook", "hook1");
    MatchOneName(ps, "Note Hook", "hook1");
    assert "Note Hook" != "Issue Hook" by { assert |"Note Hook"| != |"Issue Hook"|; }
    GetEndpointsOrder(c, "ibforuorg", "2", "Issue Hook");
    GetEndpointsOrder(c, "ibforuorg", "2", "Note Hook");
    NoSubscriptionNoEndpoints(c, "1", "2", "3");
  }

  /** A configuration that was never loaded resolves every query to nothing. */
  lemma UnloadedResolvesNothing(org: string, repo: string, eventType: string)
    ensures GetEndpoints(AccessConfig(None, []), org, repo, eventType) == []
  {
  }

  /** A subscription under an `org/repo` key only, with no `org`-level entry. */
  function RepoScopeOnly(): AccessConfig
  {
    AccessConfig(
      Some(map["org1/test1" := ["hook2"]]),
      [ Plugin("hook2", "http://localhost:7000/gitcode-hook2", ["Issue Hook"]) ])
  }

  /**
   * Only the subscribed repository receives the event; another repository of
   * the same org gets nothing.
   */
  lemma RepoScopeResolution()
    ensures GetEndpoints(RepoScopeOnly(), "org1", "test1", "Issue Hook") == ["http://localhost:7000/gitcode-hook2"]
    ensures GetEndpoints(RepoScopeOnly(), "org1", "2", "Push Hook") == []
  {
    var c := RepoScopeOnly();
    var m := Subscriptions(c);
    assert "org1" !in m by { assert |"org1"| != |"org1/test1"|; }
    assert RepoKey("org1", "test1") == "org1/test1";
    assert Lookup(m, RepoKey("org1", "test1")) == ["hook2"];
    assert RepoKey("org1", "2") !in m by { assert |RepoKey("org1", "2")| == 6; }
    GetEndpointsOrder(c, "org1", "test1", "Issue Hook");
    NoSubscriptionNoEndpoints(c, "org1", "2", "Push Hook");
    assert MatchName(c.plugins, "Issue Hook", "hook2") == ["http://localhost:7000/gitcode-hook2"] by {
      assert c.plugins[..0] == [];
    }
    assert MatchEndpoint(c.plugins, "Issue Hook", ["hook2"]) == MatchName(c.plugins, "Issue Hook", "hook2");
  }

  /**
   * A plugin declared without events next to one taking "IssueHook"; the
   * comment on `Events` in config.go says the second should receive everything.
   */
  function CatchAll(): AccessConfig
  {
    AccessConfig(
      Some(map["org1" := ["s1"], "org1/repo1" := ["s2"]]),
      [ Plugin("s1", "https://h/e1", ["IssueHook"]),
        Plugin("s2", "https://h/e2", []) ])
  }

  /**
   * The plugin without events receives nothing, whatever the event: "IssueHook"
   * reaches only `s1`, and every other event reaches nobody.
   */
  lemma CatchAllIsNotImplemented(e: string)
    ensures GetEndpoints(CatchAll(), "org1", "repo1", "IssueHook") == ["https://h/e1"]
    ensures e != "IssueHook" ==> GetEndpoints(CatchAll(), "org1", "repo1", e) == []
    ensures "https://h/e2" !in GetEndpoints(CatchAll(), "org1", "repo1", e)
  {
    var c := CatchAll();
    var m := Subscriptions(c);
    assert RepoKey("org1", "repo1") == "org1/repo1";
    assert Lookup(m, "org1") == ["s1"];
    assert Lookup(m, RepoKey("org1", "repo1")) == ["s2"];
    assert "s1" != "s2" by { assert "s1"[1] != "s2"[1]; }
    assert "https://h/e1" != "https://h/e2" by { assert "https://h/e1"[11] != "https://h/e2"[11]; }
    MatchOneName(c.plugins, "IssueHook", "s1");
    MatchOneName(c.plugins, "IssueHook", "s2");
    MatchOneName(c.plugins, e, "s1");
    MatchOneName(c.plugins, e, "s2");
    GetEndpointsOrder(c, "org1", "repo1", "IssueHook");
    GetEndpointsOrder(c, "org1", "repo1", e);
  }
}

=== FILE: config_proofs.dfy ===
/**
 * Properties of endpoint resolution and validation in config.go: the order of
 * the result, its exact contents with multiplicity, the early returns, the
 * treatment of plugins without events, and what a validated configuration
 * guarantees about the endpoints it resolves to.
 */
module ConfigProofs {
  import opened Wrappers
  import opened Config

  // ---------------------------------------------------------------------------
  // Structure of matchEndpoint
  // ---------------------------------------------------------------------------

  /** Matching a concatenation of candidate lists matches each list in turn. */
  lemma {:induction false} MatchEndpointAppend(ps: seq<Plugin>, event: string, a: seq<string>, b: seq<string>)
    ensures MatchEndpoint(ps, event, a + b) == MatchEndpoint(ps, event, a) + MatchEndpoint(ps, event, b)
    decreases |b|
  {
    if b == [] {
      assert a + b == a;
    } else {
      var b' := b[..|b| - 1];
      var x := b[|b| - 1];
      assert (a + b)[..|a + b| - 1] == a + b';
      assert (a + b)[|a + b| - 1] == x;
      assert MatchEndpoint(ps, event, a + b) == MatchEndpoint(ps, event, a + b') + MatchName(ps, event, x);
      assert MatchEndpoint(ps, event, b) == MatchEndpoint(ps, event, b') + MatchName(ps, event, x);
      MatchEndpointAppend(ps, event, a, b');
    }
  }

  /** With no plugins, nothing matches, whatever the candidates. */
  lemma {:induction false} MatchEndpointNoPlugins(event: string, names: seq<string>)
    ensures MatchEndpoint([], event, names) == []
    decreases |names|
  {
    if names != [] {
      MatchEndpointNoPlugins(event, names[..|names| - 1]);
    }
  }

  // ---------------------------------------------------------------------------
  // GetEndpoints: the guards and the order
  // ---------------------------------------------------------------------------

  /**
   * The nil-map return and the emptiness guard of `GetEndpoints` change nothing:
   * the result is exactly the matches of the candidate list.
   */
  lemma GetEndpointsIsMatch(c: AccessConfig, org: string, repo: string, eventType: string)
    ensures GetEndpoints(c, org, repo, eventType)
         == MatchEndpoint(c.plugins, eventType,
              Lookup(Subscriptions(c), org) + Lookup(Subscriptions(c), RepoKey(org, repo)))
  {
    var names := Lookup(Subscriptions(c), org) + Lookup(Subscriptions(c), RepoKey(org, repo));
    if c.plugins == [] {
      MatchEndpointNoPlugins(eventType, names);
    }
  }

  /**
   * The endpoints for the subscriptions under `org` come first, followed by
   * those for the subscriptions under `org/repo`.
   */
  lemma GetEndpointsOrder(c: AccessConfig, org: string, repo: string, eventType: string)
    ensures GetEndpoints(c, org, repo, eventType)
         == MatchEndpoint(c.plugins, eventType, Lookup(Subscriptions(c), org))
          + MatchEndpoint(c.plugins, eventType, Lookup(Subscriptions(c), RepoKey(org, repo)))
  {
    GetEndpointsIsMatch(c, org, repo, eventType);
    MatchEndpointAppend(c.plugins, eventType, Lookup(Subscriptions(c), org), Lookup(Subscriptions(c), RepoKey(org, repo)));
  }

  /** An unknown org and repository, or a nil map, resolve to nothing, not to an error. */
  lemma NoSubscriptionNoEndpoints(c: AccessConfig, org: string, repo: string, eventType: string)
    requires org !in Subscriptions(c) && RepoKey(org, repo) !in Subscriptions(c)
    ensures GetEndpoints(c, org, repo, eventType) == []
  {
    GetEndpointsIsMatch(c, org, repo, eventType);
  }

  // ---------------------------------------------------------------------------
  // Contents and multiplicity
  // ---------------------------------------------------------------------------

  /**
   * The (candidate position, plugin position) pairs that match on name and event
   * and whose plugin has endpoint `u`.
   */
  ghost function PairsTo(ps: seq<Plugin>, event: string, names: seq<string>, u: string): set<(int, int)>
  {
    set i, j | 0 <= i < |names| && 0 <= j < |ps| && Selects(ps[j], names[i], event) && ps[j].endpoint == u :: (i, j)
  }

  /** The pairs of `PairsTo` whose candidate is the one at position `i`, named `name`. */
  ghost function RowTo(ps: seq<Plugin>, event: string, name: string, i: int, u: string): set<(int, int)>
  {
    set j | 0 <= j < |ps| && Selects(ps[j], name, event) && ps[j].endpoint == u :: (i, j)
  }

  /** Occurrences in a concatenation add up. */
  lemma MultisetOfAppend(s: seq<string>, a: seq<string>, b: seq<string>, u: string)
    requires s == a + b
    ensures multiset(s)[u] == multiset(a)[u] + multiset(b)[u]
  {
  }

  /** The pairs of one candidate, split at the last plugin. */
  lemma RowToSnoc(ps: seq<Plugin>, event: string, name: string, i: int, u: string)
    requires ps != []
    ensures var ps' := ps[..|ps| - 1];
      var last := ps[|ps| - 1];
      && (i, |ps'|) !in RowTo(ps', event, name, i, u)
      && RowTo(ps, event, name, i, u)
         == RowTo(ps', event, name, i, u) + (if Selects(last, name, event) && last.endpoint == u then {(i, |ps'|)} else {})
  {
    var ps' := ps[..|ps| - 1];
    var last := ps[|ps| - 1];
    var row := RowTo(ps, event, name, i, u);
    var row' := RowTo(ps', event, name, i, u);
    var extra: set<(int, int)> := if Selects(last, name, event) && last.endpoint == u then {(i, |ps'|)} else {};
    forall x | x in row ensures x in row' + extra {
      var j :| 0 <= j < |ps| && Selects(ps[j], name, event) && ps[j].endpoint == u && x == (i, j);
      if j < |ps'| {
        assert ps'[j] == ps[j];
        assert (i, j) in row';
      }
    }
    forall x | x in row' ensures x in row {
      var j :| 0 <= j < |ps'| && Selects(ps'[j], name, event) && ps'[j].endpoint == u && x == (i, j);
      assert ps'[j] == ps[j];
      assert (i, j) in row;
    }
  }

  lemma {:induction false} MatchNameCount(ps: seq<Plugin>, event: string, name: string, i: int, u: string)
    ensures multiset(MatchName(ps, event, name))[u] == |RowTo(ps, event, name, i, u)|
    decreases |ps|
  {
    if ps == [] {
      assert RowTo(ps, event, name, i, u) == {};
    } else {
      var ps' := ps[..|ps| - 1];
      var last := ps[|ps| - 1];
      var tail := if Selects(last, name, event) then [last.endpoint] else [];
      MultisetOfAppend(MatchName(ps, event, name), MatchName(ps', event, name), tail, u);
      MatchNameCount(ps', event, name, i, u);
      RowToSnoc(ps, event, name, i, u);
    }
  }

  /** The pairs of a candidate list, split at the last candidate. */
  lemma PairsToSnoc(ps: seq<Plugin>, event: string, names: seq<string>, u: string)
    requires names != []
    ensures var names' := names[..|names| - 1];
      var n := |names'|;
      && PairsTo(ps, event, names', u) * RowTo(ps, event, names[n], n, u) == {}
      && PairsTo(ps, event, names, u) == PairsTo(ps, event, names', u) + RowTo(ps, event, names[n], n, u)
  {
    var names' := names[..|names| - 1];
    var n := |names'|;
    var all := PairsTo(ps, event, names, u);
    var before := PairsTo(ps, event, names', u);
    var row := RowTo(ps, event, names[n], n, u);
    forall x | x in all ensures x in before + row {
      var i, j :| 0 <= i < |names| && 0 <= j < |ps| && Selects(ps[j], names[i], event) && ps[j].endpoint == u && x == (i, j);
      if i < n {
        assert names'[i] == names[i];
        assert (i, j) in before;
      } else {
        assert (n, j) in row;
      }
    }
    forall x | x in before ensures x in all {
      var i, j :| 0 <= i < |names'| && 0 <= j < |ps| && Selects(ps[j], names'[i], event) && ps[j].endpoint == u && x == (i, j);
      assert names'[i] == names[i];
      assert (i, j) in all;
    }
    forall x | x in row ensures x in all && x !in before {
      var j :| 0 <= j < |ps| && Selects(ps[j], names[n], event) && ps[j].endpoint == u && x == (n, j);
      assert (n, j) in all;
    }
  }

  /**
   * Exact multiplicity: every endpoint occurs in the result once per matching
   * (candidate occurrence, plugin entry) pair, and not otherwise. Nothing is
   * deduplicated.
   */
  lemma {:induction false} MatchEndpointCount(ps: seq<Plugin>, event: string, names: seq<string>, u: string)
    ensures multiset(MatchEndpoint(ps, event, names))[u] == |PairsTo(ps, event, names, u)|
    decreases |names|
  {
    if names == [] {
      assert PairsTo(ps, event, names, u) == {};
    } else {
      var names' := names[..|names| - 1];
      var n := |names'|;
      MultisetOfAppend(MatchEndpoint(ps, event, names), MatchEndpoint(ps, event, names'), MatchName(ps, event, names[n]), u);
      MatchEndpointCount(ps, event, names', u);
      MatchNameCount(ps, event, names[n], n, u);
      PairsToSnoc(ps, event, names, u);
    }
  }

  /**
   * Soundness and completeness: a URL is returned exactly when some candidate
   * names a plugin that lists the event and has that URL as endpoint.
   */
  lemma MatchEndpointMembers(ps: seq<Plugin>, event: string, names: seq<string>, u: string)
    ensures u in MatchEndpoint(ps, event, names) <==>
      exists i, j | 0 <= i < |names| && 0 <= j < |ps| :: Selects(ps[j], names[i], event) && ps[j].endpoint == u
  {
    MatchEndpointCount(ps, event, names, u);
    var pairs := PairsTo(ps, event, names, u);
    if u in MatchEndpoint(ps, event, names) {
      assert pairs != {};
      var x :| x in pairs;
    }
    if exists i, j | 0 <= i < |names| && 0 <= j < |ps| :: Selects(ps[j], names[i], event) && ps[j].endpoint == u {
      var i, j :| 0 <= i < |names| && 0 <= j < |ps| && Selects(ps[j], names[i], event) && ps[j].endpoint == u;
      assert (i, j) in pairs;
    }
  }

  /**
   * A plugin subscribed both under the org and under the org/repo key is sent
   * the event twice.
   */
  lemma DoubleSubscription(c: AccessConfig, org: string, repo: string, eventType: string, j: int)
    requires 0 <= j < |c.plugins| && eventType in c.plugins[j].events
    requires c.plugins[j].name in Lookup(Subscriptions(c), org)
    requires c.plugins[j].name in Lookup(Subscriptions(c), RepoKey(org, repo))
    ensures multiset(GetEndpoints(c, org, repo, eventType))[c.plugins[j].endpoint] >= 2
  {
    var ps := c.plugins;
    var u := ps[j].endpoint;
    var a := Lookup(Subscriptions(c), org);
    var b := Lookup(Subscriptions(c), RepoKey(org, repo));
    GetEndpointsOrder(c, org, repo, eventType);
    var ia :| 0 <= ia < |a| && a[ia] == ps[j].name;
    var ib :| 0 <= ib < |b| && b[ib] == ps[j].name;
    MatchEndpointMembers(ps, eventType, a, u);
    MatchEndpointMembers(ps, eventType, b, u);
    assert Selects(ps[j], a[ia], eventType) && Selects(ps[j], b[ib], eventType);
    assert multiset(MatchEndpoint(ps, eventType, a))[u] >= 1;
    assert multiset(MatchEndpoint(ps, eventType, b))[u] >= 1;
  }

  /** Two plugin entries with the same name both contribute to the result. */
  lemma DuplicatePluginNames(ps: seq<Plugin>, event: string, names: seq<string>, i: int, j1: int, j2: int)
    requires 0 <= i < |names| && 0 <= j1 < |ps| && 0 <= j2 < |ps| && j1 != j2
    requires Selects(ps[j1], names[i], event) && Selects(ps[j2], names[i], event)
    ensures ps[j1].endpoint in MatchEndpoint(ps, event, names)
    ensures ps[j2].endpoint in MatchEndpoint(ps, event, names)
    ensures ps[j1].endpoint == ps[j2].endpoint ==> multiset(MatchEndpoint(ps, event, names))[ps[j1].endpoint] >= 2
  {
    MatchEndpointMembers(ps, event, names, ps[j1].endpoint);
    MatchEndpointMembers(ps, event, names, ps[j2].endpoint);
    if ps[j1].endpoint == ps[j2].endpoint {
      var u := ps[j1].endpoint;
      var pairs := PairsTo(ps, event, names, u);
      MatchEndpointCount(ps, event, names, u);
      assert (i, j1) in pairs && (i, j2) in pairs;
      assert |pairs - {(i, j1)}| == |pairs| - 1;
      assert (i, j2) in pairs - {(i, j1)};
    }
  }

  // ---------------------------------------------------------------------------
  // Plugins without events
  // ---------------------------------------------------------------------------

  /** The plugins that list at least one event, in order. */
  function Listening(ps: seq<Plugin>): (r: seq<Plugin>)
    ensures forall p | p in r :: p in ps && p.events != []
  {
    if ps == [] then []
    else
      var last := ps[|ps| - 1];
      Listening(ps[..|ps| - 1]) + (if last.events != [] then [last] else [])
  }

  /** Appending one plugin appends its endpoint when it is selected. */
  lemma MatchNameSnoc(ps: seq<Plugin>, p: Plugin, event: string, name: string)
    ensures MatchName(ps + [p], event, name)
         == MatchName(ps, event, name) + (if Selects(p, name, event) then [p.endpoint] else [])
  {
    assert (ps + [p])[..|ps + [p]| - 1] == ps;
  }

  lemma {:induction false} MatchNameListening(ps: seq<Plugin>, event: string, name: string)
    ensures MatchName(Listening(ps), event, name) == MatchName(ps, event, name)
    decreases |ps|
  {
    if ps != [] {
      var ps' := ps[..|ps| - 1];
      var last := ps[|ps| - 1];
      MatchNameListening(ps', event, name);
      if last.events != [] {
        MatchNameSnoc(Listening(ps'), last, event, name);
      } else {
        assert Listening(ps) == Listening(ps');
      }
    }
  }

  /**
   * Removing every plugin whose event list is empty never changes a match: such
   * a plugin is never selected, although the field's documentation says it
   * should receive every event.
   */
  lemma {:induction false} MatchEndpointIgnoresSilentPlugins(ps: seq<Plugin>, event: string, names: seq<string>)
    ensures MatchEndpoint(Listening(ps), event, names) == MatchEndpoint(ps, event, names)
    decreases |names|
  {
    if names != [] {
      MatchEndpointIgnoresSilentPlugins(ps, event, names[..|names| - 1]);
      MatchNameListening(ps, event, names[|names| - 1]);
    }
  }

  lemma {:induction false} ListeningNone(ps: seq<Plugin>)
    requires forall i | 0 <= i < |ps| :: ps[i].events == []
    ensures Listening(ps) == []
    decreases |ps|
  {
    if ps != [] {
      ListeningNone(ps[..|ps| - 1]);
    }
  }

  /** A configuration whose plugins list no events resolves every query to nothing. */
  lemma NoEventsNoEndpoints(c: AccessConfig, org: string, repo: string, eventType: string)
    requires forall i | 0 <= i < |c.plugins| :: c.plugins[i].events == []
    ensures GetEndpoints(c, org, repo, eventType) == []
  {
    var names := Lookup(Subscriptions(c), org) + Lookup(Subscriptions(c), RepoKey(org, repo));
    GetEndpointsIsMatch(c, org, repo, eventType);
    MatchEndpointIgnoresSilentPlugins(c.plugins, eventType, names);
    ListeningNone(c.plugins);
    MatchEndpointNoPlugins(eventType, names);
  }

  // ---------------------------------------------------------------------------
  // Validation and resolution together
  // ---------------------------------------------------------------------------

  /**
   * Once a configuration validates, every candidate name a query produces is a
   * defined plugin, and every URL it resolves to is non-empty and accepted by the
   * request-URI parser.
   */
  lemma ValidatedResolution(c: AccessConfig, parses: string -> bool, order: seq<string>,
                            org: string, repo: string, eventType: string)
    requires Enumerates(order, Subscriptions(c).Keys)
    requires Validate(c, parses, order) == Pass
    ensures forall n | n in Lookup(Subscriptions(c), org) + Lookup(Subscriptions(c), RepoKey(org, repo)) ::
      n in PluginNames(c.plugins)
    ensures forall u | u in GetEndpoints(c, org, repo, eventType) :: u != "" && parses(u)
  {
    var names := Lookup(Subscriptions(c), org) + Lookup(Subscriptions(c), RepoKey(org, repo));
    GetEndpointsIsMatch(c, org, repo, eventType);
    forall u | u in GetEndpoints(c, org, repo, eventType)
      ensures u != "" && parses(u)
    {
      MatchEndpointMembers(c.plugins, eventType, names, u);
      var i, j :| 0 <= i < |names| && 0 <= j < |c.plugins| && Selects(c.plugins[j], names[i], eventType) && c.plugins[j].endpoint == u;
      assert WellFormedPlugin(c.plugins[j], parses);
    }
  }

  /**
   * The first failing plugin decides validation: the plugins after it and the
   * subscriptions are never looked at.
   */
  lemma FirstInvalidPluginDecides(c: AccessConfig, c': AccessConfig, parses: string -> bool,
                                  order: seq<string>, order': seq<string>, i: int)
    requires Enumerates(order, Subscriptions(c).Keys) && Enumerates(order', Subscriptions(c').Keys)
    requires 0 <= i < |c.plugins| && i < |c'.plugins| && c.plugins[..i + 1] == c'.plugins[..i + 1]
    requires !WellFormedPlugin(c.plugins[i], parses)
    requires forall j | 0 <= j < i :: WellFormedPlugin(c.plugins[j], parses)
    ensures Validate(c, parses, order) == Validate(c', parses, order')
    ensures Validate(c, parses, order) == Fail(InvalidPlugin(ValidatePlugin(c.plugins[i], parses).error))
  {
    var msg := ValidatePlugin(c.plugins[i], parses).error;
    FirstErrorPrefix(c.plugins, parses, i);
    assert c'.plugins[i] == c'.plugins[..i + 1][i];
    FirstErrorPrefix(c'.plugins, parses, i);
    assert FirstPluginError(c.plugins, parses) == Some(msg);
    assert FirstPluginError(c'.plugins, parses) == Some(msg);
    assert Validate(c, parses, order) == Fail(InvalidPlugin(msg));
    assert Validate(c', parses, order') == Fail(InvalidPlugin(msg));
  }

  /** The error of the first failing plugin is determined by the plugins up to it. */
  lemma {:induction false} FirstErrorPrefix(ps: seq<Plugin>, parses: string -> bool, i: int)
    requires 0 <= i < |ps| && !WellFormedPlugin(ps[i], parses)
    ensures FirstPluginError(ps, parses) == FirstPluginError(ps[..i + 1], parses)
    ensures (forall j | 0 <= j < i :: WellFormedPlugin(ps[j], parses)) ==>
      FirstPluginError(ps, parses) == Some(ValidatePlugin(ps[i], parses).error)
    decreases i
  {
    var pre := ps[..i + 1];
    if ValidatePlugin(ps[0], parses).Pass? {
      assert i > 0;
      assert forall j | 0 <= j < i - 1 :: ps[1..][j] == ps[j + 1];
      assert ps[1..][..i] == pre[1..];
      FirstErrorPrefix(ps[1..], parses, i - 1);
    }
  }
}

=== FILE: robot.dfy ===
/**
 * The inbound gate and the dispatcher of the relay (robot.go). `ServeHTTP`
 * checks that an event carries a type, a payload, an owner and a repository,
 * resolves the endpoints and, when there are any, hands them to the dispatcher
 * after counting one more delivery in flight. The dispatcher posts the event to
 * the endpoints one after the other and stops at the first transport error.
 */
module Robot {
  import opened Wrappers
  import opened Config

  const MissingEventTypeMessage: string := "400 Bad Request: Missing Event Type Header"
  const NoBodyMessage: string := "400 Bad Request: request body should be ono-nil"
  const NoOrgMessage: string := "400 Bad Request: request body not contain owner"
  const NoRepoMessage: string := "400 Bad Request: request body not contain repo"

  /** The header marking a request the relay has already accepted, and its value. */
  const HeaderRobotChain: string := "Robot-Chain"
  const HeaderRobotChainAuthed: string := "Request-Authenticated"

  /**
   * What the event parser extracts from a request: the event type, owner and
   * repository (each possibly nil) and whether a payload was decoded.
   */
  datatype Event = Event(eventType: Option<string>, payload: bool, org: Option<string>, repo: Option<string>)

  /** HTTP headers: each name carries a list of values. */
  type Header = map<string, seq<string>>

  datatype Request = Request(event: Event, header: Header)

  /**
   * How a request ends: a 400 with a fixed message, a success with nobody to
   * notify, or a success that starts the dispatcher with these endpoints and
   * headers.
   */
  datatype Response =
    | BadRequest(message: string)
    | NoSubscribers
    | Dispatch(endpoints: seq<string>, header: Header)

  /** The robot: its configuration and the count of dispatchers still running (`wg`). */
  datatype Robot = Robot(config: AccessConfig, inFlight: nat)

  datatype Served = Served(response: Response, bot: Robot)

  /** The event fields the gate requires, in the order it checks them. */
  datatype Field = EventTypeField | PayloadField | OrgField | RepoField

  function Rank(f: Field): nat
  {
    match f
    case EventTypeField => 0
    case PayloadField => 1
    case OrgField => 2
    case RepoField => 3
  }

  function MessageFor(f: Field): string
  {
    match f
    case EventTypeField => MissingEventTypeMessage
    case PayloadField => NoBodyMessage
    case OrgField => NoOrgMessage
    case RepoField => NoRepoMessage
  }

  /** `utils.GetString`: the pointed-to string, or "" for nil. */
  function GetString(s: Option<string>): string
  {
    match s
    case None => ""
    case Some(v) => v
  }

  /** Whether field `f` of the event is absent; a nil and an empty string both count. */
  predicate Missing(ev: Event, f: Field)
  {
    match f
    case EventTypeField => GetString(ev.eventType) == ""
    case PayloadField => !ev.payload
    case OrgField => GetString(ev.org) == ""
    case RepoField => GetString(ev.repo) == ""
  }

  /**
   * `h` after `Header.Set(key, value)`: `key` carries exactly `value` and every
   * other header is as before.
   */
  ghost predicate SetOnly(h: Header, h': Header, key: string, value: string)
  {
    && key in h' && h'[key] == [value]
    && forall k | k != key :: (k in h' <==> k in h) && (k in h ==> h'[k] == h[k])
  }

  function SetHeader(h: Header, key: string, value: string): (r: Header)
    ensures SetOnly(h, r, key, value)
  {
    h[key := [value]]
  }

  /** The endpoints a well-formed event resolves to. */
  function Resolve(bot: Robot, ev: Event): seq<string>
  {
    GetEndpoints(bot.config, GetString(ev.org), GetString(ev.repo), GetString(ev.eventType))
  }

  /** `ServeHTTP`, up to the point where it starts the dispatcher goroutine. */
  function ServeHTTP(bot: Robot, req: Request): (r: Served)
    ensures r.response.BadRequest? <==> exists f :: Missing(req.event, f)
    ensures r.response.BadRequest? ==>
      && r.bot == bot
      && r.response.message in {MissingEventTypeMessage, NoBodyMessage, NoOrgMessage, NoRepoMessage}
    ensures !r.response.BadRequest? ==> (r.response.Dispatch? <==> Resolve(bot, req.event) != [])
    ensures r.response.NoSubscribers? ==> r.bot == bot
    ensures r.response.Dispatch? ==>
      && r.response.endpoints == Resolve(bot, req.event)
      && r.bot.config == bot.config
      && r.bot.inFlight == bot.inFlight + 1
      && SetOnly(req.header, r.response.header, HeaderRobotChain, HeaderRobotChainAuthed)
  {
    var ev := req.event;
    if GetString(ev.eventType) == "" then
      assert Missing(ev, EventTypeField);
      Served(BadRequest(MissingEventTypeMessage), bot)
    else if !ev.payload then
      assert Missing(ev, PayloadField);
      Served(BadRequest(NoBodyMessage), bot)
    else if GetString(ev.org) == "" then
      assert Missing(ev, OrgField);
      Served(BadRequest(NoOrgMessage), bot)
    else if GetString(ev.repo) == "" then
      assert Missing(ev, RepoField);
      Served(BadRequest(NoRepoMessage), bot)
    else
      var endpoints := Resolve(bot, ev);
      if |endpoints| == 0 then Served(NoSubscribers, bot)
      else Served(Dispatch(endpoints, SetHeader(req.header, HeaderRobotChain, HeaderRobotChainAuthed)),
                  bot.(inFlight := bot.inFlight + 1))
  }

  /** The status the caller sees: `http.Error` writes 400, otherwise the default 200. */
  function StatusCode(resp: Response): int
  {
    if resp.BadRequest? then 400 else 200
  }

  /** The body the caller sees: `http.Error` writes the message and a newline. */
  function ResponseBody(resp: Response): string
  {
    if resp.BadRequest? then resp.message + "\n" else ""
  }

  // ---------------------------------------------------------------------------
  // Dispatcher
  // ---------------------------------------------------------------------------

  /**
   * What a POST returns once the HTTP client has done its own retries: a response
   * of any status, or a transport error.
   */
  datatype PostOutcome = Responded | TransportError

  /** One POST the dispatcher made. */
  datatype Attempt = Attempt(uri: string, header: Header, outcome: PostOutcome)

  /** `wg.Done()`. */
  function Done(bot: Robot): (r: Robot)
    requires bot.inFlight >= 1
    ensures r.config == bot.config && r.inFlight + 1 == bot.inFlight
  {
    bot.(inFlight := bot.inFlight - 1)
  }

  /**
   * `dispatcher`: posts to each endpoint in order with the gate's headers, where
   * `posts[i]` is what the POST to `endpoints[i]` would return, and stops at the
   * first transport error. The deferred `wg.Done()` runs on every exit.
   */
  method Dispatcher(bot: Robot, header: Header, endpoints: seq<string>, posts: seq<PostOutcome>)
    returns (trace: seq<Attempt>, bot': Robot)
    requires |posts| == |endpoints|
    requires bot.inFlight >= 1
    ensures bot'.config == bot.config && bot'.inFlight == bot.inFlight - 1
    ensures |trace| <= |endpoints|
    ensures forall i | 0 <= i < |trace| :: trace[i] == Attempt(endpoints[i], header, posts[i])
    ensures forall i | 0 <= i < |trace| - 1 :: posts[i] == Responded
    ensures |trace| < |endpoints| ==> 0 < |trace| && posts[|trace| - 1] == TransportError
  {
    trace := [];
    var i := 0;
    while i < |endpoints|
      invariant 0 <= i <= |endpoints|
      invariant |trace| == i
      invariant forall k | 0 <= k < i :: trace[k] == Attempt(endpoints[k], header, posts[k])
      invariant forall k | 0 <= k < i :: posts[k] == Responded
    {
      trace := trace + [Attempt(endpoints[i], header, posts[i])];
      if posts[i] == TransportError {
        bot' := Done(bot);
        return;
      }
      i := i + 1;
    }
    bot' := Done(bot);
  }

  // ---------------------------------------------------------------------------
  // The in-flight count over many requests
  // ---------------------------------------------------------------------------

  /** The robot after a batch of requests, and the endpoint lists handed to dispatchers. */
  datatype Batch = Batch(bot: Robot, launched: seq<seq<string>>)

  function ServeAll(bot: Robot, reqs: seq<Request>): (r: Batch)
    ensures r.bot.config == bot.config
    ensures r.bot.inFlight == bot.inFlight + |r.launched|
    ensures forall k | 0 <= k < |r.launched| :: r.launched[k] != []
    decreases |reqs|
  {
    if reqs == [] then Batch(bot, [])
    else
      var b := ServeAll(bot, reqs[..|reqs| - 1]);
      var s := ServeHTTP(b.bot, reqs[|reqs| - 1]);
      match s.response
      case Dispatch(endpoints, _) => Batch(s.bot, b.launched + [endpoints])
      case _ => Batch(s.bot, b.launched)
  }

  /** `n` dispatchers finishing. */
  function DoneTimes(bot: Robot, n: nat): (r: Robot)
    requires n <= bot.inFlight
    ensures r.config == bot.config && r.inFlight + n == bot.inFlight
    decreases n
  {
    if n == 0 then bot else DoneTimes(Done(bot), n - 1)
  }

  /** `wait()` returns once no dispatcher is running. */
  predicate Drained(bot: Robot)
  {
    bot.inFlight == 0
  }
}

=== FILE: robot_proofs.dfy ===
/**
 * Properties of the inbound gate and the dispatcher in robot.go: which 400
 * message a malformed event gets, what a dispatch carries, and how the count
 * of running dispatchers returns to where it started.
 */
module RobotProofs {
  import opened Wrappers
  import opened Robot

  /** The four 400 messages are pairwise different, so a message names its field. */
  lemma MessagesDistinct(f: Field, g: Field)
    ensures MessageFor(f) == MessageFor(g) <==> f == g
  {
    assert NoBodyMessage[30] != NoOrgMessage[30];
  }

  /**
   * The gate checks event type, payload, owner and repository in that order: the
   * caller gets the message of field `f` exactly when `f` is missing and every
   * field checked before it is present.
   */
  lemma GatePrecedence(bot: Robot, req: Request, f: Field)
    ensures ServeHTTP(bot, req).response == BadRequest(MessageFor(f)) <==>
      Missing(req.event, f) && forall g | Rank(g) < Rank(f) :: !Missing(req.event, g)
  {
    forall g | g != f
      ensures MessageFor(g) != MessageFor(f)
    {
      MessagesDistinct(f, g);
    }
    var ev := req.event;
    var earlier := forall g | Rank(g) < Rank(f) :: !Missing(ev, g);
    match f
    case EventTypeField =>
    case PayloadField =>
      assert earlier <==> !Missing(ev, EventTypeField);
    case OrgField =>
      assert earlier <==> !Missing(ev, EventTypeField) && !Missing(ev, PayloadField);
    case RepoField =>
      assert earlier <==> !Missing(ev, EventTypeField) && !Missing(ev, PayloadField) && !Missing(ev, OrgField);
  }

  /**
   * What the caller of `ServeHTTP` reads: status 400 exactly when a field is
   * missing, with the first missing field's message and a newline as the body;
   * otherwise the default status 200 and an empty body.
   */
  lemma GateResponse(bot: Robot, req: Request, f: Field)
    requires Missing(req.event, f) && forall g | Rank(g) < Rank(f) :: !Missing(req.event, g)
    ensures StatusCode(ServeHTTP(bot, req).response) == 400
    ensures ResponseBody(ServeHTTP(bot, req).response) == MessageFor(f) + "\n"
  {
    GatePrecedence(bot, req, f);
  }

  /** A request with every field present is answered with status 200 and an empty body. */
  lemma GateAccepts(bot: Robot, req: Request)
    requires forall f :: !Missing(req.event, f)
    ensures StatusCode(ServeHTTP(bot, req).response) == 200
    ensures ResponseBody(ServeHTTP(bot, req).response) == ""
  {
  }

  /**
   * The three malformed requests of the dispatcher test: without a repository the
   * caller reads the no-repo message, without owner and repository the no-owner
   * one, and without event type, owner and repository the missing-event-type one.
   */
  lemma GateTestCases(bot: Robot, h: Header, eventType: string, org: string)
    requires eventType != "" && org != ""
    ensures var r := ServeHTTP(bot, Request(Event(Some(eventType), true, Some(org), None), h));
      StatusCode(r.response) == 400 && ResponseBody(r.response) == NoRepoMessage + "\n" && r.bot == bot
    ensures var r := ServeHTTP(bot, Request(Event(Some(eventType), true, None, None), h));
      StatusCode(r.response) == 400 && ResponseBody(r.response) == NoOrgMessage + "\n" && r.bot == bot
    ensures var r := ServeHTTP(bot, Request(Event(None, true, None, None), h));
      StatusCode(r.response) == 400 && ResponseBody(r.response) == MissingEventTypeMessage + "\n" && r.bot == bot
  {
  }

  /**
   * After a batch of requests, once every dispatcher it started has finished,
   * the robot is back where it was; from an idle robot, `wait()` does not return
   * while any of those dispatchers is still running.
   */
  lemma DrainRestores(bot: Robot, reqs: seq<Request>)
    ensures |ServeAll(bot, reqs).launched| <= ServeAll(bot, reqs).bot.inFlight
    ensures DoneTimes(ServeAll(bot, reqs).bot, |ServeAll(bot, reqs).launched|) == bot
    ensures Drained(bot) ==> forall k: nat | k < |ServeAll(bot, reqs).launched| ::
      !Drained(DoneTimes(ServeAll(bot, reqs).bot, k))
  {
  }

  /**
   * One request handled from start to finish: the gate, then, if it dispatched,
   * the dispatcher run to completion, `posts` being what each POST would return.
   */
  method HandleRequest(bot: Robot, req: Request, posts: seq<PostOutcome>)
    returns (resp: Response, trace: seq<Attempt>, bot': Robot)
    requires |posts| == |Resolve(bot, req.event)|
    ensures bot' == bot
    ensures |trace| <= |Resolve(bot, req.event)|
    ensures resp.BadRequest? ==> trace == []
    ensures resp.NoSubscribers? ==> trace == [] && Resolve(bot, req.event) == []
    ensures resp.Dispatch? ==> 0 < |trace|
    ensures forall i | 0 <= i < |trace| ::
      && trace[i].uri == Resolve(bot, req.event)[i]
      && SetOnly(req.header, trace[i].header, HeaderRobotChain, HeaderRobotChainAuthed)
  {
    var served := ServeHTTP(bot, req);
    resp := served.response;
    bot' := served.bot;
    trace := [];
    if resp.Dispatch? {
      trace, bot' := Dispatcher(served.bot, resp.header, resp.endpoints, posts);
    }
  }
}

=== FILE: wrappers.dfy ===
/** Failure-carrying value types shared by the configuration and robot models. */
module Wrappers {

  /** A value that may be absent: a Go nil pointer, a nil map or a missing header. */
  datatype Option<+T> = None | Some(value: T)

  /** The result of a Go function returning only `error`: `nil` is `Pass`. */
  datatype Outcome<+E> = Pass | Fail(error: E)
}
